=== FILE: README.md ===
# Product search, preferences, payment and account handlers — a Dafny model

This project models the request handlers of a small e-commerce aggregation
service. Users register and log in. A search crawls marketplace offers (a
fixed simulation of two listings), upserts them into the product catalog and
ranks them. Users save filter preferences that become an `ORDER BY` list. The
payment endpoints quote a total cost and simulate a payment.

Each handler is a pure function from the store plus the request to the new
store plus the reply (status code and message). The foreign collaborators are
parameters:

- password hashing and verification: a `PasswordHasher` value;
- token issuance: a function from user id to token;
- whether the database accepts a commit: a boolean `available`;
- the crawler's output: a listing sequence, with `Search.SimulatedListings`
  as the fixed batch.

Modules, one per source file or component:

- `Common`: optional fields, results, status codes, Python truthiness of request fields.
- `Records` (model.py): users, search entries, products, ranked products, the
  `to_dict` projection, the password pair and the user table's unique constraints.
- `Catalog` (views/product.py, upsert loop): the product table keyed by
  (product name, shop name), and an idempotent batch upsert.
- `Ranking` (views/product.py, scoring, sort and ranks): the marketability and
  customer-benefit scores, a stable descending insertion sort, and ranks 1..N.
- `Search` (views/product.py, `search_products`): the whole search handler.
- `Preferences` (views/filtering_sorting.py): the preference table as a
  (user, key) → value map, and the order-clause builder.
- `Payment` (views/payment.py): the cost quote and the payment decision table.
- `Accounts` (views/user.py) and `Auth` (views/Auth.py): register, login,
  profile update, search history and social login.

Behaviour of the code worth knowing when reading the model:

- The search is not atomic. The catalog upserts are committed before scoring
  (the handler commits twice). So a zero delivery cost fails the ranking with
  a server error while the upserted catalog stays, and the rankings are
  unchanged.
- An empty `query` is rejected like an absent one.
- Payment modes are free strings compared for equality, not an enumeration.

## Model

| member | source | states |
|---|---|---|
| Records.ToDict | model.py:127-136 | the serialised row carries the referenced catalog entry's name, price, rating and shop, and the row's own rank, mb_score and cb_score |
| Records.SetPassword | model.py:27-33 | setting a password changes only the stored hash, and afterwards checking the same password succeeds, given a hasher whose hashes verify |
| Records.FindByEmail | views/user.py:49 | finds a user exactly when some row has the email; with unique emails, it finds that row |
| Records.IndexOfId | views/user.py:70-72 | finds the first row carrying the id, and finds nothing exactly when no row carries it |
| Catalog.Find | views/product.py:29 | the (name, shop) lookup succeeds exactly when an entry with that key exists; with unique keys, it returns that entry |
| Catalog.FindById | views/payment.py:20 | the id lookup succeeds exactly when a product with that id exists, and returns the first such product in table order, which is the only one when ids are unique |
| Catalog.Upsert | views/product.py:28-41 | afterwards the listing's key is present; an existing entry leaves the catalog unchanged; otherwise exactly one entry is appended with the listing's attributes and a fresh id; unique keys, unique ids and the id bound are preserved |
| Catalog.UpsertAllCovers | views/product.py:28-42 | after the batch, every listed key is present and the earlier rows are kept as a prefix |
| Catalog.UpsertAllOnlyListed | views/product.py:28-42 | every entry the batch creates carries the key of some listing in the batch |
| Catalog.UpsertAllValid | views/product.py:28-42 | the batch keeps at most one entry per (name, shop) key and per id, and ids stay below the next id |
| Catalog.UpsertAllPresent | views/product.py:28-42 | a batch whose keys are all present already leaves the catalog unchanged |
| Catalog.UpsertAllIdempotent | views/product.py:28-42 | running the batch twice leaves the same catalog as running it once |
| Ranking.MbScore | views/product.py:11 | ten times the marketability score is a hundred times the rating plus the number of ratings, so the division by ten is real-valued |
| Ranking.MbScoreMonotone | views/product.py:11 | a higher rating with at least as many ratings never gets a lower marketability score |
| Ranking.CbScore | views/product.py:12 | the customer-benefit score times the delivery cost is the price; it is defined only for a non-zero delivery cost |
| Ranking.ScoreListing | views/product.py:6-13 | scoring fails exactly when the delivery cost is zero; otherwise it returns the listing's key and both scores |
| Ranking.ScoreAll | views/product.py:46-47 | the batch fails exactly when some delivery cost is zero; otherwise it has one score record per listing, in listing order |
| Ranking.Insert | views/product.py:57 | insertion adds one element, keeps a descending sequence descending, and keeps every upper bound on the scores that the inserted element also respects |
| Ranking.InsertPermutes | views/product.py:57 | insertion adds exactly the inserted element and loses nothing |
| Ranking.SortByMb | views/product.py:57 | the sort returns a permutation of its input that does not increase in marketability score |
| Ranking.InsertKeepsTies | views/product.py:57 | in a descending sequence, insertion puts the new element before every element it ties with, so each score class reads as if the element were put in front |
| Ranking.SortIsStable | views/product.py:57 | for every score, the elements with that score keep their input order, as Python's stable sort does |
| Ranking.AssignRanks | views/product.py:58-59 | the element at sorted index i gets rank start + i and keeps its key and scores |
| Ranking.UnrankAssignRanks | views/product.py:58-59 | dropping the ranks gives back exactly the sorted sequence |
| Ranking.RankFails | views/product.py:44-54 | ranking the batch fails exactly when some listing has a zero delivery cost |
| Ranking.RankPermutes | views/product.py:44-59 | a successful ranking has one row per listing, and without the ranks it is a permutation of the per-listing score records |
| Ranking.RankOrdered | views/product.py:57-59 | a successful ranking numbers its rows 1..N in order and never increases in marketability score from one row to a later one |
| Ranking.RankStable | views/product.py:57 | listings that tie on marketability keep their crawl order in the ranking |
| Ranking.RankedKeysListed | views/product.py:46-59 | every ranked row refers to the key of a listing in the batch |
| Ranking.TopRankIsMaximal | views/product.py:57-59 | the row with rank 1 has the highest marketability score of the batch |
| Search.Views | views/product.py:64 | one serialised row per ranked row, each showing the row's key, rank and scores with the price and rating of the catalog entry for that key |
| Search.SearchProducts | views/product.py:15-64 | a missing or empty query gives 400 and no change. Otherwise the catalog is the upserted one, and the reply is 500 exactly when a delivery cost is zero, with the rankings unchanged; every other query gives 200. On 200 the stored rankings are the old ones followed by the ranking of the batch, and result i shows ranked row i with its catalog price and rating |
| Search.ResultsComeFromCatalog | views/product.py:49-64 | for a query the handler answers with 200, each result shows the current price and rating of the catalog entry with its (name, shop) key |
| Search.RepeatedSearchKeepsCatalog | views/product.py:28-42 | a second identical search adds no catalog entry |
| Search.SimulatedSearchRanksJumiaFirst | views/product.py:22-59 | for the simulated batch, Jumia's offer (score 48.0) gets rank 1 and Kill Mall's (score 40.4) rank 2, whatever the catalog held |
| Preferences.IndexOf | views/filtering_sorting.py:22 | finds the first row with the (user, key) pair, and finds nothing exactly when no row has it |
| Preferences.Lookup | views/filtering_sorting.py:22 | a lookup finds a value exactly when some row has the (user, key) pair; the value is that of the first such row, which is the only one when pairs are unique |
| Preferences.SetPreference | views/filtering_sorting.py:7-32 | a missing or falsy user id, key or value gives 400 and no change; otherwise 200; the pair then maps to the new value and every other pair is unchanged; an existing row only has its value overwritten; a new pair appends exactly one row; at most one row per pair is preserved |
| Preferences.LookupWritten | views/filtering_sorting.py:22-29 | after saving a value for a (user, key) pair, looking that pair up gives the new value |
| Preferences.LookupOthers | views/filtering_sorting.py:22-29 | saving a value for one (user, key) pair leaves the lookup of every other pair as it was |
| Preferences.WriteKeepsUnique | views/filtering_sorting.py:22-29 | saving a value never creates a second row for a (user, key) pair |
| Preferences.SameKeysSameIndex | views/filtering_sorting.py:22 | rewriting values or appending a row does not move the first match of a pair |
| Preferences.SetPreferenceIdempotent | views/filtering_sorting.py:22-29 | saving the same preference twice leaves the table as saving it once |
| Preferences.SortDirection | views/filtering_sorting.py:54-63 | the direction is descending exactly for "descending"; "ascending" and every other value give ascending |
| Preferences.OrderClauses | views/filtering_sorting.py:60-64 | a clause is produced for every price or rating preference, and every clause comes from one |
| Preferences.OrderClausesAppend | views/filtering_sorting.py:60-64 | clause building distributes over concatenation, so clauses keep the order of their preferences |
| Preferences.ForUser | views/filtering_sorting.py:48 | the user's preferences are exactly the rows with that user id, no more of them than the table has |
| Preferences.ForUserAppend | views/filtering_sorting.py:48 | selecting a user's rows distributes over concatenation, so each matching row appears once and in table order |
| Preferences.ForUserSingle | views/filtering_sorting.py:48 | a single row is selected exactly when it belongs to the user |
| Preferences.ApplyFilters | views/filtering_sorting.py:35-64 | a missing user id gives 400 and no clauses; otherwise 200, and the clauses are exactly those of the user's price and rating preferences |
| Preferences.SetThenApply | views/filtering_sorting.py:7-64 | after a user saves a price or rating preference, applying their filters orders by that column in the saved direction |
| Payment.CalculateTotalCost | views/payment.py:7-32 | a falsy product id gives 400; an unknown id gives 404; 200 exactly for a known id, with the product's name, price and delivery cost echoed and a total equal to price plus delivery |
| Payment.QuoteIsTheProduct | views/payment.py:20-32 | when product ids are unique, the quote for a product's id carries that product's name, price and delivery cost, and their sum as the total |
| Payment.ProcessPayment | views/payment.py:35-71 | a missing field gives 400; an unknown product gives 404; a mode other than the product's gives 400 naming the expected mode; 200 exactly for a matching "Pay before delivery" or "Pay after delivery", with their two messages; any other matching mode gives 400 "Payment mode not supported"; with unique ids the echo is the name and price of the one product with the id |
| Payment.UnsupportedModeNeverPays | views/payment.py:54-71 | a product stored with an unknown payment mode can never be paid for |
| Accounts.AddUser | views/user.py:26-31 | registration appends exactly one row with the given username, email and hash, and keeps the earlier rows |
| Accounts.AddUserCommits | model.py:15-18 | in a valid table, adding the new user respects the unique constraints exactly when neither its email nor its username is taken |
| Accounts.RegisterCommits | views/user.py:29-31 | the database accepts a registration exactly when it is reachable and neither the email nor the username is taken |
| Accounts.Register | views/user.py:8-33 | a missing field gives 400 and no change; a taken email gives 400 and no change; 201 exactly when the fields are given, the email and username are new and the commit goes through; on 201 exactly one user with that email is appended and its password verifies; the unique constraints are preserved |
| Accounts.Authenticate | views/user.py:49-50 | a user is returned exactly when the email is known and that user's hash verifies the password |
| Accounts.Login | views/user.py:36-55 | missing fields give 400; 401 exactly when the email is unknown or the password does not verify; a known email whose first user's hash verifies the password gets 200 and the token for that user's id; a token exactly on 200 |
| Accounts.RegisterThenLogin | views/user.py:8-55 | a user who has just registered logs in with the same credentials and receives the token for the id the registration assigned |
| Accounts.UpdateProfile | views/user.py:58-82 | the reply is 404, with no change, exactly for an unknown user. For a known user in a valid table, the reply is 200 exactly when the database is reachable and the new username, if given, is not used by another row; a refused commit gives 500 and no change. On 200 only the caller's username and picture change, each only when a non-empty value is given, and every other row and field is unchanged. The unique constraints are preserved |
| Accounts.RenameCommits | model.py:16 | in a table that meets the unique constraints, changing one row's username and picture keeps the constraints exactly when no other row has the new username |
| Accounts.UpdateProfileIdempotent | views/user.py:58-82 | sending the same profile update twice leaves the table as sending it once |
| Accounts.IndexOfIdFirst | views/user.py:70 | the id lookup finds the first row carrying the id |
| Accounts.SaveSearchHistory | views/user.py:85-103 | an empty query gives 400 and no change; otherwise exactly one entry for the caller with that query is appended, under the table's next id, and the next id advances, so a table whose ids are distinct and below the next id stays so |
| Accounts.GetSearchHistory | views/user.py:106-118 | the reply holds exactly the caller's entries |
| Accounts.ItemsOf | views/user.py:115-116 | the items are exactly those of the entries with the given user id |
| Accounts.ItemsOfAppend | views/user.py:115-116 | history items distribute over concatenation, so they keep table order |
| Accounts.SaveThenGet | views/user.py:95-118 | a saved search appears last in the saver's history and leaves every other user's history unchanged |
| Auth.Register | views/Auth.py:8-33 | a missing field gives 400; a taken email gives 400; a refused commit is rolled back: 500 with the database error and no change; on 201 exactly one user with that email is appended and its password verifies; the unique constraints are preserved |
| Auth.RegisterAgreesWithUserViews | views/Auth.py:8-33 | this registration takes the same decisions and leaves the same table as the one in the user views |
| Auth.Login | views/Auth.py:36-51 | missing fields give 400; 401 exactly when the email is unknown or the password does not verify; valid credentials get 200 and the token for the matching user's id; the same token decisions as the login of the user views |
| Auth.WrongPasswordRefused | views/Auth.py:46-48 | with unique emails, a correct email with a password that does not verify gives 401 and no token |
| Auth.SocialLogin | views/Auth.py:54-68 | every request gives 400: missing provider or token, Google (not implemented), or any other provider (unsupported) |

Three functions carry no row of their own, because the lemmas above specify them: `Ranking.Rank`, the scoring, sorting and ranking engine (views/product.py:44-59), is specified by `Ranking.RankFails` through `Ranking.TopRankIsMaximal`; `Catalog.UpsertAll`, the upsert loop (views/product.py:28-42), by the `Catalog.UpsertAll*` lemmas; and `Preferences.Write`, the preference upsert (views/filtering_sorting.py:22-29), by `Preferences.LookupWritten`, `Preferences.LookupOthers` and `Preferences.WriteKeepsUnique`.

## Left out

- HTTP routing, JSON parsing, CORS, JWT decoding (the caller's user id is a parameter) and the SMS gateway are not modelled. The application setup, views/search.py and views/africastalking_setup.py are not part of this model.
- Password hashing and token issuance are function-valued parameters. The only law assumed is that a hash verifies against its own password (`Records.Sound`). Salting is folded into the hash function.
- The database is a set of sequences with explicit next-id counters. Commit success is the `available` flag plus the user table's unique constraints. Commits of the catalog, rankings, preferences and search history are assumed to succeed.
- The schema declares `phone_number` NOT NULL, but neither registration handler supplies one. The model keeps the phone number optional and does not derive a commit failure from that constraint.
- `created_at` and `search_date` timestamps (the clock) are not modelled. The history reply carries only id and query.
- Prices, ratings and scores are `real`. IEEE rounding, infinity and NaN are not modelled; a zero delivery cost is an explicit scoring failure.
- The search handler reads `product['id']` from the listing dict, which has no such key. It also passes `num_ratings` to the product constructor, which is not a column. The model keys ranked rows by their (name, shop) catalog key and does not store the rating count.
- The preference table is not defined in model.py. It is modelled as rows of (user id, key, value).
- `apply_filters`: only the built clause list is modelled, not the raw SQL execution or its result rows. The model takes the `user_id` query argument already converted to an integer. Whether the query library accepts `order_by` on a raw text query is not modelled.
- Request fields are typed (ids as integers, the rest as strings). Python truthiness of other JSON value types is not modelled.
- The unhandled exception of a refused commit in the user views becomes Flask's generic server error. Its message text is modelled as "Internal Server Error".
- Tables the core never touches (product searches, auth tokens, price history) are not modelled.

=== FILE: accounts.dfy ===
/** The account and search-history handlers of views/user.py, each a
    transition of the user table (or the history table) plus a reply.
    Password hashing and token issuance are parameters. */
module Accounts {
  import opened Common
  import opened Records

  datatype Transition = Transition(users: UserStore, response: Response)

  /** The table after inserting a newly registered user under the next id. */
  function AddUser(s: UserStore, username: string, email: string, passwordHash: string): (r: UserStore)
    ensures |r.rows| == |s.rows| + 1 && r.rows[..|s.rows|] == s.rows
    ensures r.rows[|s.rows|].email == email && r.rows[|s.rows|].username == username
    ensures r.rows[|s.rows|].passwordHash == passwordHash
    ensures ValidUsers(s) && Commits(r, true) ==> ValidUsers(r)
  {
    var r := UserStore(s.rows + [NewUser(s.nextId, username, email, passwordHash)], s.nextId + 1);
    assert r.rows[..|s.rows|] == s.rows;
    r
  }

  predicate HasUsername(rows: seq<User>, username: string) {
    exists i :: 0 <= i < |rows| && rows[i].username == username
  }

  /** Adding a user with a new email and a new username keeps the table's
      unique constraints, since the new row has no phone number and a fresh id. */
  lemma AddUserCommits(s: UserStore, username: string, email: string, passwordHash: string)
    requires ValidUsers(s)
    ensures UniqueUsers(AddUser(s, username, email, passwordHash).rows) <==>
      !HasEmail(s.rows, email) && !HasUsername(s.rows, username)
  {
    var r := AddUser(s, username, email, passwordHash);
    var n := |s.rows|;
    if !HasEmail(s.rows, email) && !HasUsername(s.rows, username) {
      forall i, j | 0 <= i < j < |r.rows|
        ensures && r.rows[i].id != r.rows[j].id
                && r.rows[i].username != r.rows[j].username
                && r.rows[i].email != r.rows[j].email
                && (r.rows[i].phoneNumber.None? || r.rows[i].phoneNumber != r.rows[j].phoneNumber)
      {
        if j == n {
          assert r.rows[i] == s.rows[i];
        } else {
          assert r.rows[i] == s.rows[i] && r.rows[j] == s.rows[j];
        }
      }
    } else if HasEmail(s.rows, email) {
      var i :| 0 <= i < n && s.rows[i].email == email;
      assert r.rows[i].email == r.rows[n].email;
    } else {
      var i :| 0 <= i < n && s.rows[i].username == username;
      assert r.rows[i].username == r.rows[n].username;
    }
  }

  /** `POST /register` of the user views. A commit the database refuses
      raises out of the handler: the reply is a server error and the table
      is as before. */
  function Register(s: UserStore, username: Option<string>, email: Option<string>, password: Option<string>,
                    h: PasswordHasher, available: bool): (r: Transition)
    ensures !(Given(username) && Given(email) && Given(password)) ==>
      r == Transition(s, Response(HttpBadRequest, "Username, email, and password are required"))
    ensures Given(username) && Given(email) && Given(password) && HasEmail(s.rows, email.value) ==>
      r == Transition(s, Response(HttpBadRequest, "Email already registered"))
    ensures ValidUsers(s) ==>
      (r.response.status == HttpCreated <==>
        && Given(username) && Given(email) && Given(password)
        && !HasEmail(s.rows, email.value) && !HasUsername(s.rows, username.value) && available)
    ensures r.response.status == HttpCreated ==>
      && r.response.message == "User registered successfully"
      && |r.users.rows| == |s.rows| + 1
      && r.users.rows[..|s.rows|] == s.rows
      && FindByEmail(r.users.rows, email.value) == Some(r.users.rows[|s.rows|])
      && r.users.rows[|s.rows|].username == username.value
      && (Sound(h) ==> CheckPassword(r.users.rows[|s.rows|], password.value, h))
    ensures r.response.status != HttpCreated ==> r.users == s
    ensures r.response.status in {HttpCreated, HttpBadRequest, HttpServerError}
    ensures ValidUsers(s) ==> ValidUsers(r.users)
  {
    if !(Given(username) && Given(email) && Given(password)) then
      Transition(s, Response(HttpBadRequest, "Username, email, and password are required"))
    else if FindByEmail(s.rows, email.value).Some? then
      Transition(s, Response(HttpBadRequest, "Email already registered"))
    else
      var after := AddUser(s, username.value, email.value, h.hash(password.value));
      if Commits(after, available) then
        assert FindByEmail(after.rows, email.value) == Some(after.rows[|s.rows|]);
        RegisterCommits(s, username.value, email.value, h.hash(password.value), available);
        Transition(after, Response(HttpCreated, "User registered successfully"))
      else
        RegisterCommits(s, username.value, email.value, h.hash(password.value), available);
        Transition(s, Response(HttpServerError, "Internal Server Error"))
  }

  /** When the database accepts a registration: it is reachable and neither the email nor the username is taken. */
  lemma RegisterCommits(s: UserStore, username: string, email: string, passwordHash: string, available: bool)
    ensures ValidUsers(s) ==>
      (Commits(AddUser(s, username, email, passwordHash), available) <==>
        available && !HasEmail(s.rows, email) && !HasUsername(s.rows, username))
  {
    if ValidUsers(s) {
      AddUserCommits(s, username, email, passwordHash);
    }
  }

  /** The user whose stored hash verifies the given password, if the email is known. */
  function Authenticate(rows: seq<User>, email: string, password: string, h: PasswordHasher): (r: Option<User>)
    ensures r.Some? <==> FindByEmail(rows, email).Some? && CheckPassword(FindByEmail(rows, email).value, password, h)
    ensures r.Some? ==> r.value in rows && r.value.email == email
  {
    match FindByEmail(rows, email)
    case None => None
    case Some(u) => if CheckPassword(u, password, h) then Some(u) else None
  }

  datatype LoginReply = LoginReply(response: Response, accessToken: Option<string>)

  /** `POST /login` of the user views: a token for the user's id, or a refusal. */
  function Login(s: UserStore, email: Option<string>, password: Option<string>,
                 h: PasswordHasher, issue: int -> string): (r: LoginReply)
    ensures !(Given(email) && Given(password)) ==>
      r == LoginReply(Response(HttpBadRequest, "Email and password are required"), None)
    ensures r.response.status == HttpUnauthorized <==>
      && Given(email) && Given(password)
      && (!HasEmail(s.rows, email.value) || !CheckPassword(FindByEmail(s.rows, email.value).value, password.value, h))
    ensures r.response.status == HttpUnauthorized ==> r.response.message == "Invalid credentials"
    ensures Given(email) && Given(password) && HasEmail(s.rows, email.value)
            && CheckPassword(FindByEmail(s.rows, email.value).value, password.value, h) ==>
      r.response.status == HttpOk && r.accessToken == Some(issue(FindByEmail(s.rows, email.value).value.id))
    ensures r.accessToken.Some? <==> r.response.status == HttpOk
    ensures r.response.status == HttpOk ==>
      exists u :: u in s.rows && u.email == email.value && CheckPassword(u, password.value, h)
        && r.accessToken == Some(issue(u.id))
    ensures r.response.status in {HttpOk, HttpBadRequest, HttpUnauthorized}
  {
    if !(Given(email) && Given(password)) then
      LoginReply(Response(HttpBadRequest, "Email and password are required"), None)
    else match Authenticate(s.rows, email.value, password.value, h)
      case None => LoginReply(Response(HttpUnauthorized, "Invalid credentials"), None)
      case Some(u) => LoginReply(Response(HttpOk, ""), Some(issue(u.id)))
  }

  /** A user who has just registered can log in with the same email and
      password, and the token is issued for the id the registration assigned. */
  lemma RegisterThenLogin(s: UserStore, username: string, email: string, password: string,
                          h: PasswordHasher, available: bool, issue: int -> string)
    requires Sound(h)
    requires Register(s, Some(username), Some(email), Some(password), h, available).response.status == HttpCreated
    ensures
      var after := Register(s, Some(username), Some(email), Some(password), h, available).users;
      Login(after, Some(email), Some(password), h, issue) == LoginReply(Response(HttpOk, ""), Some(issue(s.nextId)))
  {
    var after := Register(s, Some(username), Some(email), Some(password), h, available).users;
    assert after == AddUser(s, username, email, h.hash(password));
    assert after.rows[|s.rows|].id == s.nextId;
  }

  /** `PUT /update-profile`: overwrite the username and the picture of the
      caller's row, each only when the request gives a non-empty value. */
  function UpdateProfile(s: UserStore, userId: int, username: Option<string>, picture: Option<string>,
                         available: bool): (r: Transition)
    ensures IndexOfId(s.rows, userId).None? ==> r == Transition(s, Response(HttpNotFound, "User not found"))
    ensures r.response.status == HttpNotFound <==> IndexOfId(s.rows, userId).None?
    ensures r.response.status != HttpOk ==> r.users == s
    ensures r.response.status == HttpOk ==>
      var k := IndexOfId(s.rows, userId).value;
      && r.response.message == "Profile updated successfully"
      && r.users.nextId == s.nextId
      && |r.users.rows| == |s.rows|
      && (forall j :: 0 <= j < |s.rows| && j != k ==> r.users.rows[j] == s.rows[j])
      && r.users.rows[k].(username := s.rows[k].username, profilePicture := s.rows[k].profilePicture) == s.rows[k]
      && r.users.rows[k].username == (if Given(username) then username.value else s.rows[k].username)
      && r.users.rows[k].profilePicture == (if Given(picture) then picture else s.rows[k].profilePicture)
    ensures ValidUsers(s) && IndexOfId(s.rows, userId).Some? && !Given(username) && !Given(picture) && available ==>
      r == Transition(s, Response(HttpOk, "Profile updated successfully"))
    ensures ValidUsers(s) && IndexOfId(s.rows, userId).Some? ==>
      (r.response.status == HttpOk <==>
        && available
        && (!Given(username) || UsernameFree(s.rows, IndexOfId(s.rows, userId).value, username.value)))
    ensures r.response.status == HttpServerError ==> r.response.message == "Internal Server Error"
    ensures r.response.status in {HttpOk, HttpNotFound, HttpServerError}
    ensures ValidUsers(s) ==> ValidUsers(r.users)
  {
    match IndexOfId(s.rows, userId)
    case None => Transition(s, Response(HttpNotFound, "User not found"))
    case Some(k) =>
      var u := s.rows[k];
      var u' := u.(username := if Given(username) then username.value else u.username,
                   profilePicture := if Given(picture) then picture else u.profilePicture);
      var after := s.(rows := s.rows[k := u']);
      RenameCommits(s.rows, k, u');
      if Commits(after, available) then
        assert ValidUsers(s) ==> ValidUsers(after);
        assert !Given(username) && !Given(picture) ==> after == s;
        Transition(after, Response(HttpOk, "Profile updated successfully"))
      else
        Transition(s, Response(HttpServerError, "Internal Server Error"))
  }

  /** No row other than row `k` uses the username. */
  predicate UsernameFree(rows: seq<User>, k: nat, username: string) {
    forall j :: 0 <= j < |rows| && j != k ==> rows[j].username != username
  }

  /** Replacing a row by one that differs only in username and picture keeps
      the unique constraints exactly when no other row has the new username. */
  lemma RenameCommits(rows: seq<User>, k: nat, u': User)
    requires k < |rows|
    requires u'.(username := rows[k].username, profilePicture := rows[k].profilePicture) == rows[k]
    ensures UniqueUsers(rows) ==> (UniqueUsers(rows[k := u']) <==> UsernameFree(rows, k, u'.username))
  {
    var after := rows[k := u'];
    if UniqueUsers(rows) && !UsernameFree(rows, k, u'.username) {
      var j :| 0 <= j < |rows| && j != k && rows[j].username == u'.username;
      if j < k {
        assert after[j].username == after[k].username;
      } else {
        assert after[k].username == after[j].username;
      }
    }
  }

  /** Sending the same profile update twice leaves the table as sending it once. */
  lemma UpdateProfileIdempotent(s: UserStore, userId: int, username: Option<string>, picture: Option<string>)
    ensures
      var once := UpdateProfile(s, userId, username, picture, true).users;
      UpdateProfile(once, userId, username, picture, true).users == once
  {
    var once := UpdateProfile(s, userId, username, picture, true).users;
    if UpdateProfile(s, userId, username, picture, true).response.status == HttpOk {
      var k := IndexOfId(s.rows, userId).value;
      assert IndexOfId(once.rows, userId) == Some(k) by {
        assert once.rows[k].id == userId;
        assert forall j :: 0 <= j < k ==> once.rows[j] == s.rows[j];
        IndexOfIdFirst(once.rows, userId, k);
      }
      assert once.rows[k := once.rows[k]] == once.rows;
    }
  }

  /** The first row carrying an id is the one `IndexOfId` finds. */
  lemma {:induction false} IndexOfIdFirst(rows: seq<User>, id: int, k: nat)
    requires k < |rows| && rows[k].id == id
    requires forall j :: 0 <= j < k ==> rows[j].id != id
    ensures IndexOfId(rows, id) == Some(k)
  {
    if k > 0 {
      IndexOfIdFirst(rows[1..], id, k - 1);
    }
  }

  datatype HistoryReply = HistoryReply(history: HistoryStore, response: Response)

  /** `POST /save-search-history`: append one entry for the caller. */
  function SaveSearchHistory(hs: HistoryStore, userId: int, query: Option<string>): (r: HistoryReply)
    ensures !Given(query) ==> r == HistoryReply(hs, Response(HttpBadRequest, "Search query is required"))
    ensures Given(query) ==>
      && r.response == Response(HttpOk, "Search history saved successfully")
      && |r.history.rows| == |hs.rows| + 1
      && r.history.rows[..|hs.rows|] == hs.rows
      && r.history.rows[|hs.rows|].userId == userId
      && r.history.rows[|hs.rows|].searchQuery == query.value
      && r.history.rows[|hs.rows|].id == hs.nextId
      && r.history.nextId == hs.nextId + 1
      && ((forall e :: e in hs.rows ==> e.id < hs.nextId) ==>
            forall e :: e in hs.rows ==> e.id != r.history.rows[|hs.rows|].id)
    ensures ValidHistory(hs) ==> ValidHistory(r.history)
  {
    if !Given(query) then HistoryReply(hs, Response(HttpBadRequest, "Search query is required"))
    else
      var rows := hs.rows + [SearchEntry(hs.nextId, query.value, userId)];
      assert rows[..|hs.rows|] == hs.rows;
      HistoryReply(HistoryStore(rows, hs.nextId + 1), Response(HttpOk, "Search history saved successfully"))
  }

  /** One item of the history reply (the search date is not modelled). */
  datatype HistoryItem = HistoryItem(id: nat, searchQuery: string)

  /** `GET /get-search-history`: the caller's entries, in table order. */
  function GetSearchHistory(hs: HistoryStore, userId: int): (r: seq<HistoryItem>)
    ensures |r| <= |hs.rows|
    ensures forall item :: item in r <==>
      exists e :: e in hs.rows && e.userId == userId && item == HistoryItem(e.id, e.searchQuery)
  {
    ItemsOf(hs.rows, userId)
  }

  function ItemsOf(rows: seq<SearchEntry>, userId: int): (r: seq<HistoryItem>)
    ensures |r| <= |rows|
    ensures forall item :: item in r <==>
      exists e :: e in rows && e.userId == userId && item == HistoryItem(e.id, e.searchQuery)
  {
    if |rows| == 0 then []
    else
      assert rows == [rows[0]] + rows[1..];
      (if rows[0].userId == userId then [HistoryItem(rows[0].id, rows[0].searchQuery)] else [])
        + ItemsOf(rows[1..], userId)
  }

  lemma {:induction false} ItemsOfAppend(a: seq<SearchEntry>, b: seq<SearchEntry>, userId: int)
    ensures ItemsOf(a + b, userId) == ItemsOf(a, userId) + ItemsOf(b, userId)
  {
    if |a| > 0 {
      var head := if a[0].userId == userId then [HistoryItem(a[0].id, a[0].searchQuery)] else [];
      assert (a + b)[0] == a[0] && (a + b)[1..] == a[1..] + b;
      assert ItemsOf(a, userId) == head + ItemsOf(a[1..], userId);
      assert ItemsOf(a + b, userId) == head + ItemsOf(a[1..] + b, userId);
      ItemsOfAppend(a[1..], b, userId);
    } else {
      assert a + b == b;
    }
  }

  /** Saving a search shows up, last, in the saver's history and nowhere else. */
  lemma SaveThenGet(hs: HistoryStore, userId: int, query: string, other: int)
    requires query != ""
    requires other != userId
    ensures
      var after := SaveSearchHistory(hs, userId, Some(query)).history;
      && GetSearchHistory(after, userId) == GetSearchHistory(hs, userId) + [HistoryItem(hs.nextId, query)]
      && GetSearchHistory(after, other) == GetSearchHistory(hs, other)
  {
    var e := SearchEntry(hs.nextId, query, userId);
    ItemsOfAppend(hs.rows, [e], userId);
    ItemsOfAppend(hs.rows, [e], other);
    assert [e][1..] == [];
  }
}

=== FILE: auth.dfy ===
/** The authentication handlers of views/Auth.py. Registration here catches
    a failed commit, rolls the session back and reports the database error;
    social login is a stub that refuses every request. */
module Auth {
  import opened Common
  import opened Records
  import opened Accounts

  /** `POST /register` of the authentication views. `dbError` is the text of
      the exception the database raises when it refuses the commit. */
  function Register(s: UserStore, username: Option<string>, email: Option<string>, password: Option<string>,
                    h: PasswordHasher, available: bool, dbError: string): (r: Transition)
    ensures !(Given(email) && Given(password) && Given(username)) ==>
      r == Transition(s, Response(HttpBadRequest, "Missing required fields"))
    ensures Given(email) && Given(password) && Given(username) && HasEmail(s.rows, email.value) ==>
      r == Transition(s, Response(HttpBadRequest, "Email already registered"))
    ensures r.response.status == HttpServerError ==>
      r == Transition(s, Response(HttpServerError, "Database error: " + dbError))
    ensures ValidUsers(s) ==>
      (r.response.status == HttpServerError <==>
        && Given(email) && Given(password) && Given(username) && !HasEmail(s.rows, email.value)
        && (!available || HasUsername(s.rows, username.value)))
    ensures r.response.status == HttpCreated ==>
      && r.response.message == "User registered successfully"
      && |r.users.rows| == |s.rows| + 1
      && r.users.rows[..|s.rows|] == s.rows
      && FindByEmail(r.users.rows, email.value) == Some(r.users.rows[|s.rows|])
      && (Sound(h) ==> CheckPassword(r.users.rows[|s.rows|], password.value, h))
    ensures r.response.status != HttpCreated ==> r.users == s
    ensures r.response.status in {HttpCreated, HttpBadRequest, HttpServerError}
    ensures ValidUsers(s) ==> ValidUsers(r.users)
  {
    if !(Given(email) && Given(password) && Given(username)) then
      Transition(s, Response(HttpBadRequest, "Missing required fields"))
    else if FindByEmail(s.rows, email.value).Some? then
      Transition(s, Response(HttpBadRequest, "Email already registered"))
    else
      var after := AddUser(s, username.value, email.value, h.hash(password.value));
      RegisterCommits(s, username.value, email.value, h.hash(password.value), available);
      if Commits(after, available) then
        assert FindByEmail(after.rows, email.value) == Some(after.rows[|s.rows|]);
        Transition(after, Response(HttpCreated, "User registered successfully"))
      else
        Transition(s, Response(HttpServerError, "Database error: " + dbError))
  }

  /** Both registration handlers take the same decisions and leave the same
      table; they differ only in the wording of two replies. */
  lemma RegisterAgreesWithUserViews(s: UserStore, username: Option<string>, email: Option<string>,
                                    password: Option<string>, h: PasswordHasher, available: bool, dbError: string)
    ensures
      var a := Register(s, username, email, password, h, available, dbError);
      var b := Accounts.Register(s, username, email, password, h, available);
      a.users == b.users && a.response.status == b.response.status
  {
  }

  /** `POST /login` of the authentication views: the login of the user views
      with its own wording for missing fields. */
  function Login(s: UserStore, email: Option<string>, password: Option<string>,
                 h: PasswordHasher, issue: int -> string): (r: LoginReply)
    ensures !(Given(email) && Given(password)) ==>
      r == LoginReply(Response(HttpBadRequest, "Missing email or password"), None)
    ensures r.response.status == HttpUnauthorized <==>
      && Given(email) && Given(password)
      && (!HasEmail(s.rows, email.value) || !CheckPassword(FindByEmail(s.rows, email.value).value, password.value, h))
    ensures r.response.status == HttpUnauthorized ==> r.response.message == "Invalid credentials"
    ensures Given(email) && Given(password) && HasEmail(s.rows, email.value)
            && CheckPassword(FindByEmail(s.rows, email.value).value, password.value, h) ==>
      r.response.status == HttpOk && r.accessToken == Some(issue(FindByEmail(s.rows, email.value).value.id))
    ensures r.accessToken.Some? <==> r.response.status == HttpOk
    ensures r.response.status == HttpOk ==>
      exists u :: u in s.rows && u.email == email.value && CheckPassword(u, password.value, h)
        && r.accessToken == Some(issue(u.id))
    ensures r.response.status in {HttpOk, HttpBadRequest, HttpUnauthorized}
    ensures r.accessToken == Accounts.Login(s, email, password, h, issue).accessToken
  {
    var reply := Accounts.Login(s, email, password, h, issue);
    if reply.response.status == HttpBadRequest then
      LoginReply(Response(HttpBadRequest, "Missing email or password"), None)
    else reply
  }

  /** With unique emails, a known email and a password its hash does not
      verify is refused and no token is issued. */
  lemma WrongPasswordRefused(s: UserStore, u: User, password: string, h: PasswordHasher, issue: int -> string)
    requires ValidUsers(s)
    requires u in s.rows && u.email != "" && password != ""
    requires !CheckPassword(u, password, h)
    ensures Login(s, Some(u.email), Some(password), h, issue) ==
      LoginReply(Response(HttpUnauthorized, "Invalid credentials"), None)
  {
    var i :| 0 <= i < |s.rows| && s.rows[i] == u;
    assert FindByEmail(s.rows, u.email) == Some(u);
  }

  /** `POST /social-login`: never succeeds. */
  function SocialLogin(provider: Option<string>, token: Option<string>): (r: Response)
    ensures r.status == HttpBadRequest
    ensures !(Given(provider) && Given(token)) <==> r.message == "Provider and token are required"
    ensures Given(provider) && Given(token) ==>
      r.message == (if provider.value == "google" then "Social login with Google is not implemented"
                    else "Unsupported provider")
  {
    if !(Given(provider) && Given(token)) then Response(HttpBadRequest, "Provider and token are required")
    else if provider.value == "google" then Response(HttpBadRequest, "Social login with Google is not implemented")
    else Response(HttpBadRequest, "Unsupported provider")
  }
}

=== FILE: catalog.dfy ===
/** The product catalog and the upsert that the search handler runs over the
    crawled listings before ranking them (views/product.py). */
module Catalog {
  import opened Common
  import opened Records

  /** One offer from one shop, as the marketplace crawler yields it. */
  datatype Listing = Listing(
    productName: string,
    productPrice: real,
    productRating: real,
    numRatings: nat,
    deliveryCost: real,
    paymentMode: string,
    shopName: string,
    productUrl: string)

  function ListingKey(l: Listing): ProductKey {
    ProductKey(l.productName, l.shopName)
  }

  /** The product table: its rows in insertion order and the next primary key. */
  datatype Store = Store(rows: seq<Product>, nextId: nat)

  predicate Has(rows: seq<Product>, k: ProductKey) {
    exists i :: 0 <= i < |rows| && KeyOf(rows[i]) == k
  }

  /** At most one entry per (product name, shop name) pair. */
  predicate UniqueKeys(rows: seq<Product>) {
    forall i, j :: 0 <= i < j < |rows| ==> KeyOf(rows[i]) != KeyOf(rows[j])
  }

  /** No two entries share a primary key. */
  predicate UniqueIds(rows: seq<Product>) {
    forall i, j :: 0 <= i < j < |rows| ==> rows[i].id != rows[j].id
  }

  /** Keys and ids are unique and every id was handed out before `nextId`. */
  predicate Valid(c: Store) {
    && UniqueKeys(c.rows)
    && UniqueIds(c.rows)
    && forall i :: 0 <= i < |c.rows| ==> c.rows[i].id < c.nextId
  }

  /** The first entry with this (name, shop) key, in table order. */
  function Find(rows: seq<Product>, k: ProductKey): (r: Option<Product>)
    ensures r.Some? <==> Has(rows, k)
    ensures r.Some? ==> r.value in rows && KeyOf(r.value) == k
    ensures UniqueKeys(rows) ==> forall i :: 0 <= i < |rows| && KeyOf(rows[i]) == k ==> r == Some(rows[i])
  {
    if |rows| == 0 then None
    else if KeyOf(rows[0]) == k then Some(rows[0])
    else Find(rows[1..], k)
  }

  /** The first product with this id, in table order. */
  function FindById(rows: seq<Product>, id: int): (r: Option<Product>)
    ensures r.Some? <==> exists i :: 0 <= i < |rows| && rows[i].id == id
    ensures r.Some? ==> r.value in rows && r.value.id == id
    ensures r.Some? ==> exists k :: 0 <= k < |rows| && rows[k] == r.value && forall j :: 0 <= j < k ==> rows[j].id != id
    ensures UniqueIds(rows) ==> forall i :: 0 <= i < |rows| && rows[i].id == id ==> r == Some(rows[i])
  {
    if |rows| == 0 then None
    else if rows[0].id == id then Some(rows[0])
    else FindById(rows[1..], id)
  }

  /** The catalog entry a first sighting of a listing creates. The popularity
      count is not a column of the product table and is not stored. */
  function FromListing(l: Listing, id: nat): Product {
    Product(id, l.productName, l.productPrice, Some(l.productRating), l.productUrl,
            l.deliveryCost, l.shopName, l.paymentMode)
  }

  /** Inserts a listing unless an entry with its key exists; an existing entry
      keeps its attributes, so price or rating drift is dropped. */
  function Upsert(c: Store, l: Listing): (r: Store)
    ensures Has(r.rows, ListingKey(l))
    ensures Has(c.rows, ListingKey(l)) ==> r == c
    ensures !Has(c.rows, ListingKey(l)) ==>
      && |r.rows| == |c.rows| + 1
      && r.rows[..|c.rows|] == c.rows
      && KeyOf(r.rows[|c.rows|]) == ListingKey(l)
      && r.rows[|c.rows|].price == l.productPrice
      && r.rows[|c.rows|].rating == Some(l.productRating)
      && r.rows[|c.rows|].deliveryCost == l.deliveryCost
      && r.rows[|c.rows|].paymentMode == l.paymentMode
      && r.rows[|c.rows|].url == l.productUrl
      && r.rows[|c.rows|].id == c.nextId
    ensures Valid(c) ==> Valid(r)
  {
    if Find(c.rows, ListingKey(l)).Some? then c
    else
      var r := Store(c.rows + [FromListing(l, c.nextId)], c.nextId + 1);
      assert KeyOf(r.rows[|c.rows|]) == ListingKey(l);
      r
  }

  /** The upsert loop over a batch of listings, in batch order. */
  function UpsertAll(c: Store, ls: seq<Listing>): Store
    decreases |ls|
  {
    if |ls| == 0 then c else UpsertAll(Upsert(c, ls[0]), ls[1..])
  }

  /** Every listed key is present afterwards, and the rows before are a prefix. */
  lemma {:induction false} UpsertAllCovers(c: Store, ls: seq<Listing>)
    ensures c.rows <= UpsertAll(c, ls).rows
    ensures forall i :: 0 <= i < |ls| ==> Has(UpsertAll(c, ls).rows, ListingKey(ls[i]))
    ensures forall k :: Has(c.rows, k) ==> Has(UpsertAll(c, ls).rows, k)
    decreases |ls|
  {
    if |ls| > 0 {
      var c' := Upsert(c, ls[0]);
      UpsertAllCovers(c', ls[1..]);
      var r := UpsertAll(c, ls);
      assert c.rows <= c'.rows;
      forall k | Has(c.rows, k) ensures Has(r.rows, k) {
        var i :| 0 <= i < |c.rows| && KeyOf(c.rows[i]) == k;
        assert c'.rows[i] == c.rows[i];
      }
      forall i | 0 <= i < |ls| ensures Has(r.rows, ListingKey(ls[i])) {
        if i > 0 {
          assert ls[i] == ls[1..][i - 1];
        }
      }
    }
  }

  /** Entries created by the batch carry keys of the batch. */
  lemma {:induction false} UpsertAllOnlyListed(c: Store, ls: seq<Listing>)
    ensures forall i :: |c.rows| <= i < |UpsertAll(c, ls).rows| ==>
      exists j :: 0 <= j < |ls| && KeyOf(UpsertAll(c, ls).rows[i]) == ListingKey(ls[j])
    decreases |ls|
  {
    if |ls| > 0 {
      var c' := Upsert(c, ls[0]);
      UpsertAllOnlyListed(c', ls[1..]);
      UpsertAllCovers(c', ls[1..]);
      var r := UpsertAll(c, ls);
      assert r == UpsertAll(c', ls[1..]);
      forall i | |c.rows| <= i < |r.rows|
        ensures exists j :: 0 <= j < |ls| && KeyOf(r.rows[i]) == ListingKey(ls[j])
      {
        if i < |c'.rows| {
          assert !Has(c.rows, ListingKey(ls[0])) && i == |c.rows|;
          assert r.rows[i] == c'.rows[i];
          assert KeyOf(r.rows[i]) == ListingKey(ls[0]);
        } else {
          var j :| 0 <= j < |ls[1..]| && KeyOf(r.rows[i]) == ListingKey(ls[1..][j]);
          assert ls[1..][j] == ls[j + 1];
          assert KeyOf(r.rows[i]) == ListingKey(ls[j + 1]);
        }
      }
    } else {
      assert UpsertAll(c, ls) == c;
    }
  }

  /** The upsert batch keeps the catalog valid: still at most one entry per key. */
  lemma {:induction false} UpsertAllValid(c: Store, ls: seq<Listing>)
    requires Valid(c)
    ensures Valid(UpsertAll(c, ls))
    decreases |ls|
  {
    if |ls| > 0 {
      UpsertAllValid(Upsert(c, ls[0]), ls[1..]);
    }
  }

  /** A batch whose keys are all present already changes nothing. */
  lemma {:induction false} UpsertAllPresent(c: Store, ls: seq<Listing>)
    requires forall i :: 0 <= i < |ls| ==> Has(c.rows, ListingKey(ls[i]))
    ensures UpsertAll(c, ls) == c
    decreases |ls|
  {
    if |ls| > 0 {
      assert Upsert(c, ls[0]) == c;
      forall i | 0 <= i < |ls[1..]| ensures Has(c.rows, ListingKey(ls[1..][i])) {
        assert ls[1..][i] == ls[i + 1];
      }
      UpsertAllPresent(c, ls[1..]);
    }
  }

  /** Running the same batch twice leaves the catalog as running it once. */
  lemma UpsertAllIdempotent(c: Store, ls: seq<Listing>)
    ensures UpsertAll(UpsertAll(c, ls), ls) == UpsertAll(c, ls)
  {
    UpsertAllCovers(c, ls);
    UpsertAllPresent(UpsertAll(c, ls), ls);
  }
}

=== FILE: common.dfy ===
/** Shared vocabulary of the request handlers: optional request fields,
    success/failure results, HTTP status codes and JSON replies. */
module Common {

  /** A request field that may be absent from the JSON body. */
  datatype Option<+T> = None | Some(value: T)

  /** The outcome of a computation that may fail with an error value. */
  datatype Result<+T, +E> = Success(value: T) | Failure(error: E)

  const HttpOk: int := 200
  const HttpCreated: int := 201
  const HttpBadRequest: int := 400
  const HttpUnauthorized: int := 401
  const HttpNotFound: int := 404
  const HttpServerError: int := 500

  /** The status code and `message` field of a JSON reply. */
  datatype Response = Response(status: int, message: string)

  /** Python truthiness of an optional string field: present and non-empty. */
  predicate Given(field: Option<string>) {
    field.Some? && field.value != ""
  }

  /** Python truthiness of an optional integer field: present and non-zero. */
  predicate GivenId(field: Option<int>) {
    field.Some? && field.value != 0
  }
}

=== FILE: payment.dfy ===
/** The cost and payment endpoints (views/payment.py). Both only read the
    catalog; neither returns a changed store. */
module Payment {
  import opened Common
  import opened Records
  import opened Catalog

  const PayBeforeDelivery: string := "Pay before delivery"
  const PayAfterDelivery: string := "Pay after delivery"

  datatype CostQuote = CostQuote(productName: string, productPrice: real, deliveryCost: real, totalCost: real)

  datatype CostReply = CostReply(response: Response, quote: Option<CostQuote>)

  /** `POST /calculate-total-cost`: the price of a product plus its delivery. */
  function CalculateTotalCost(catalog: seq<Product>, productId: Option<int>): (r: CostReply)
    ensures !GivenId(productId) ==> r == CostReply(Response(HttpBadRequest, "Product ID is required"), None)
    ensures GivenId(productId) && FindById(catalog, productId.value).None? ==>
      r == CostReply(Response(HttpNotFound, "Product not found"), None)
    ensures r.response.status == HttpOk <==>
      GivenId(productId) && exists i :: 0 <= i < |catalog| && catalog[i].id == productId.value
    ensures r.quote.Some? <==> r.response.status == HttpOk
    ensures r.quote.Some? ==>
      var q := r.quote.value;
      && q.totalCost - q.deliveryCost == q.productPrice
      && exists p :: p in catalog && p.id == productId.value &&
           q.productName == p.name && q.productPrice == p.price && q.deliveryCost == p.deliveryCost
  {
    if !GivenId(productId) then CostReply(Response(HttpBadRequest, "Product ID is required"), None)
    else match FindById(catalog, productId.value)
      case None => CostReply(Response(HttpNotFound, "Product not found"), None)
      case Some(p) =>
        CostReply(Response(HttpOk, ""), Some(CostQuote(p.name, p.price, p.deliveryCost, p.price + p.deliveryCost)))
  }

  /** With unique product ids, the quote is that of the one product with the id. */
  lemma QuoteIsTheProduct(catalog: seq<Product>, p: Product)
    requires UniqueIds(catalog) && p in catalog && p.id != 0
    ensures CalculateTotalCost(catalog, Some(p.id)).quote ==
      Some(CostQuote(p.name, p.price, p.deliveryCost, p.price + p.deliveryCost))
  {
  }

  /** The product echoed by a successful payment: its name and price. */
  datatype Echo = Echo(productName: string, productPrice: real)

  datatype PaymentReply = PaymentReply(response: Response, echo: Option<Echo>)

  /** `POST /process-payment`: the requested mode must be the product's own
      mode, and only the two known modes are processed. */
  function ProcessPayment(catalog: seq<Product>, productId: Option<int>, mode: Option<string>): (r: PaymentReply)
    ensures !(GivenId(productId) && Given(mode)) ==>
      r == PaymentReply(Response(HttpBadRequest, "Product ID and Payment Mode are required"), None)
    ensures GivenId(productId) && Given(mode) && FindById(catalog, productId.value).None? ==>
      r == PaymentReply(Response(HttpNotFound, "Product not found"), None)
    ensures GivenId(productId) && Given(mode) && FindById(catalog, productId.value).Some?
            && mode.value != FindById(catalog, productId.value).value.paymentMode ==>
      r == PaymentReply(Response(HttpBadRequest,
             "Invalid payment mode. Expected: " + FindById(catalog, productId.value).value.paymentMode), None)
    ensures r.response.status == HttpOk <==>
      && GivenId(productId) && Given(mode)
      && FindById(catalog, productId.value).Some?
      && FindById(catalog, productId.value).value.paymentMode == mode.value
      && (mode.value == PayBeforeDelivery || mode.value == PayAfterDelivery)
    ensures r.response.status == HttpOk && mode.value == PayBeforeDelivery ==>
      r.response.message == "Payment processed successfully. Delivery will follow."
    ensures r.response.status == HttpOk && mode.value == PayAfterDelivery ==>
      r.response.message == "Order placed successfully. Payment due upon delivery."
    ensures GivenId(productId) && Given(mode) && FindById(catalog, productId.value).Some?
            && mode.value == FindById(catalog, productId.value).value.paymentMode
            && mode.value != PayBeforeDelivery && mode.value != PayAfterDelivery ==>
      r == PaymentReply(Response(HttpBadRequest, "Payment mode not supported"), None)
    ensures r.echo.Some? <==> r.response.status == HttpOk
    ensures r.echo.Some? ==>
      exists p :: p in catalog && p.id == productId.value && r.echo.value == Echo(p.name, p.price)
    ensures r.echo.Some? && UniqueIds(catalog) ==>
      forall p :: p in catalog && p.id == productId.value ==> r.echo.value == Echo(p.name, p.price)
    ensures r.response.status in {HttpOk, HttpBadRequest, HttpNotFound}
  {
    if !(GivenId(productId) && Given(mode)) then
      PaymentReply(Response(HttpBadRequest, "Product ID and Payment Mode are required"), None)
    else match FindById(catalog, productId.value)
      case None => PaymentReply(Response(HttpNotFound, "Product not found"), None)
      case Some(p) =>
        if mode.value != p.paymentMode then
          PaymentReply(Response(HttpBadRequest, "Invalid payment mode. Expected: " + p.paymentMode), None)
        else if mode.value == PayBeforeDelivery then
          PaymentReply(Response(HttpOk, "Payment processed successfully. Delivery will follow."),
                       Some(Echo(p.name, p.price)))
        else if mode.value == PayAfterDelivery then
          PaymentReply(Response(HttpOk, "Order placed successfully. Payment due upon delivery."),
                       Some(Echo(p.name, p.price)))
        else PaymentReply(Response(HttpBadRequest, "Payment mode not supported"), None)
  }

  /** A product stored with a mode other than the two known ones can never be
      paid for: every request naming it is answered with 400. */
  lemma UnsupportedModeNeverPays(catalog: seq<Product>, productId: Option<int>, mode: Option<string>)
    requires GivenId(productId)
    requires FindById(catalog, productId.value).Some?
    requires FindById(catalog, productId.value).value.paymentMode !in {PayBeforeDelivery, PayAfterDelivery}
    ensures ProcessPayment(catalog, productId, mode).response.status == HttpBadRequest
  {
  }
}

=== FILE: preferences.dfy ===
/** Saved filter preferences and the ordering they induce
    (views/filtering_sorting.py). The preference table is a sequence of rows
    in insertion order; `Lookup` is its view as a map from (user, key) pairs. */
module Preferences {
  import opened Common

  datatype Preference = Preference(userId: int, key: string, value: string)

  /** The value saved for a (user, key) pair: the first matching row's. */
  function Lookup(prefs: seq<Preference>, user: int, key: string): (r: Option<string>)
    ensures r.Some? <==> exists i :: 0 <= i < |prefs| && prefs[i].userId == user && prefs[i].key == key
    ensures forall i ::
      (&& 0 <= i < |prefs| && prefs[i].userId == user && prefs[i].key == key
       && forall j :: 0 <= j < i ==> !(prefs[j].userId == user && prefs[j].key == key))
      ==> r == Some(prefs[i].value)
    ensures UniquePairs(prefs) ==>
      forall i :: 0 <= i < |prefs| && prefs[i].userId == user && prefs[i].key == key ==> r == Some(prefs[i].value)
  {
    match IndexOf(prefs, user, key)
    case None => None
    case Some(i) => Some(prefs[i].value)
  }

  /** Position of the first row for a (user, key) pair, in table order. */
  function IndexOf(prefs: seq<Preference>, user: int, key: string): (r: Option<nat>)
    ensures r.Some? <==> exists i :: 0 <= i < |prefs| && prefs[i].userId == user && prefs[i].key == key
    ensures r.Some? ==> r.value < |prefs| && prefs[r.value].userId == user && prefs[r.value].key == key
    ensures r.Some? ==> forall i :: 0 <= i < r.value ==> !(prefs[i].userId == user && prefs[i].key == key)
  {
    if |prefs| == 0 then None
    else if prefs[0].userId == user && prefs[0].key == key then Some(0)
    else match IndexOf(prefs[1..], user, key)
      case None => None
      case Some(k) => Some(k + 1)
  }

  /** At most one row per (user, key) pair. */
  predicate UniquePairs(prefs: seq<Preference>) {
    forall i, j :: 0 <= i < j < |prefs| ==>
      prefs[i].userId != prefs[j].userId || prefs[i].key != prefs[j].key
  }

  datatype SetReply = SetReply(prefs: seq<Preference>, response: Response)

  /** `POST /set-preference`: overwrite the value of an existing (user, key)
      row, or append a new row. */
  function SetPreference(prefs: seq<Preference>, userId: Option<int>, key: Option<string>, value: Option<string>)
    : (r: SetReply)
    ensures !(GivenId(userId) && Given(key) && Given(value)) ==>
      r == SetReply(prefs, Response(HttpBadRequest, "User ID, preference key, and preference value are required"))
    ensures GivenId(userId) && Given(key) && Given(value) ==>
      var (u, k, v) := (userId.value, key.value, value.value);
      && r.response == Response(HttpOk, "Preference updated successfully")
      && Lookup(r.prefs, u, k) == Some(v)
      && (forall u', k' :: u' != u || k' != k ==> Lookup(r.prefs, u', k') == Lookup(prefs, u', k'))
      && (Lookup(prefs, u, k).Some? ==>
            && |r.prefs| == |prefs|
            && forall i :: 0 <= i < |prefs| ==>
                 r.prefs[i] == prefs[i] || r.prefs[i] == prefs[i].(value := v))
      && (Lookup(prefs, u, k).None? ==> r.prefs == prefs + [Preference(u, k, v)])
      && (UniquePairs(prefs) ==> UniquePairs(r.prefs))
  {
    if !(GivenId(userId) && Given(key) && Given(value)) then
      SetReply(prefs, Response(HttpBadRequest, "User ID, preference key, and preference value are required"))
    else
      var (u, k, v) := (userId.value, key.value, value.value);
      LookupWritten(prefs, u, k, v);
      forall u', k' | u' != u || k' != k ensures Lookup(Write(prefs, u, k, v), u', k') == Lookup(prefs, u', k') {
        LookupOthers(prefs, u, k, v, u', k');
      }
      WriteKeepsUnique(prefs, u, k, v);
      SetReply(Write(prefs, u, k, v), Response(HttpOk, "Preference updated successfully"))
  }

  /** The table after saving value `v` for the pair (u, k): the first row of
      the pair has its value overwritten, or a new row is appended. */
  function Write(prefs: seq<Preference>, u: int, k: string, v: string): seq<Preference> {
    match IndexOf(prefs, u, k)
    case Some(i) => prefs[i := prefs[i].(value := v)]
    case None => prefs + [Preference(u, k, v)]
  }

  /** After a write, the written pair sees the new value. */
  lemma LookupWritten(prefs: seq<Preference>, u: int, k: string, v: string)
    ensures Lookup(Write(prefs, u, k, v), u, k) == Some(v)
  {
    SameKeysSameIndex(prefs, Write(prefs, u, k, v), u, k);
  }

  /** After a write, every other pair sees what it saw before. */
  lemma LookupOthers(prefs: seq<Preference>, u: int, k: string, v: string, u': int, k': string)
    requires u' != u || k' != k
    ensures Lookup(Write(prefs, u, k, v), u', k') == Lookup(prefs, u', k')
  {
    var prefs' := Write(prefs, u, k, v);
    SameKeysSameIndex(prefs, prefs', u', k');
    if IndexOf(prefs, u, k).Some? {
      SameKeysSameIndex(prefs', prefs, u', k');
    } else if IndexOf(prefs, u', k').None? {
      assert !(prefs'[|prefs|].userId == u' && prefs'[|prefs|].key == k');
    }
  }

  /** A write never creates a second row for a pair. */
  lemma WriteKeepsUnique(prefs: seq<Preference>, u: int, k: string, v: string)
    ensures UniquePairs(prefs) ==> UniquePairs(Write(prefs, u, k, v))
  {
  }

  /** Index search only looks at the (user, key) columns: a rewrite of values
      or an appended row leaves the first match of a pair in place. */
  lemma {:induction false} SameKeysSameIndex(a: seq<Preference>, b: seq<Preference>, u: int, k: string)
    requires |a| <= |b|
    requires forall i :: 0 <= i < |a| ==> b[i].userId == a[i].userId && b[i].key == a[i].key
    ensures IndexOf(a, u, k).Some? ==> IndexOf(b, u, k) == IndexOf(a, u, k)
    ensures IndexOf(a, u, k).None? && |b| == |a| + 1 && b[|a|].userId == u && b[|a|].key == k ==>
      IndexOf(b, u, k) == Some(|a|)
  {
    if |a| > 0 && !(a[0].userId == u && a[0].key == k) {
      SameKeysSameIndex(a[1..], b[1..], u, k);
    } else if |a| == 0 && |b| == 1 {
      assert IndexOf(b[1..], u, k) == None;
    }
  }

  /** Saving the same preference twice leaves the table as saving it once. */
  lemma SetPreferenceIdempotent(prefs: seq<Preference>, userId: Option<int>, key: Option<string>, value: Option<string>)
    ensures
      var once := SetPreference(prefs, userId, key, value).prefs;
      SetPreference(once, userId, key, value).prefs == once
  {
    var once := SetPreference(prefs, userId, key, value).prefs;
    if GivenId(userId) && Given(key) && Given(value) {
      var i := IndexOf(once, userId.value, key.value).value;
      assert once[i].value == value.value;
      assert Write(once, userId.value, key.value, value.value) == once;
    }
  }

  datatype Direction = Asc | Desc

  /** The direction for a preference value: anything but "descending" sorts ascending. */
  function SortDirection(value: string): (d: Direction)
    ensures d == Desc <==> value == "descending"
    ensures value == "ascending" ==> d == Asc
  {
    if value == "ascending" then Asc
    else if value == "descending" then Desc
    else Asc
  }

  /** One `ORDER BY <column> <direction>` term. */
  datatype OrderClause = OrderClause(column: string, direction: Direction)

  /** Only the price and rating preferences order the product listing. */
  predicate Sortable(key: string) {
    key == "price" || key == "rating"
  }

  function ClauseOf(p: Preference): OrderClause {
    OrderClause(p.key, SortDirection(p.value))
  }

  /** The order-by terms, one per sortable preference, in preference order. */
  function OrderClauses(prefs: seq<Preference>): (cs: seq<OrderClause>)
    ensures |cs| <= |prefs|
    ensures forall c :: c in cs ==> exists p :: p in prefs && Sortable(p.key) && c == ClauseOf(p)
    ensures forall p :: p in prefs && Sortable(p.key) ==> ClauseOf(p) in cs
  {
    if |prefs| == 0 then []
    else
      assert prefs == [prefs[0]] + prefs[1..];
      (if Sortable(prefs[0].key) then [ClauseOf(prefs[0])] else []) + OrderClauses(prefs[1..])
  }

  /** Clause building distributes over concatenation, so clauses keep the
      relative order of the preferences they come from. */
  lemma {:induction false} OrderClausesAppend(a: seq<Preference>, b: seq<Preference>)
    ensures OrderClauses(a + b) == OrderClauses(a) + OrderClauses(b)
  {
    if |a| > 0 {
      var head := if Sortable(a[0].key) then [ClauseOf(a[0])] else [];
      assert (a + b)[0] == a[0] && (a + b)[1..] == a[1..] + b;
      assert OrderClauses(a) == head + OrderClauses(a[1..]);
      assert OrderClauses(a + b) == head + OrderClauses(a[1..] + b);
      OrderClausesAppend(a[1..], b);
    } else {
      assert a + b == b;
    }
  }

  /** All rows of one user, in table order. */
  function ForUser(prefs: seq<Preference>, user: int): (r: seq<Preference>)
    ensures |r| <= |prefs|
    ensures forall p :: p in r <==> p in prefs && p.userId == user
  {
    if |prefs| == 0 then []
    else
      assert prefs == [prefs[0]] + prefs[1..];
      (if prefs[0].userId == user then [prefs[0]] else []) + ForUser(prefs[1..], user)
  }

  /** Selecting a user's rows distributes over concatenation: each matching
      row appears once, in table order. */
  lemma {:induction false} ForUserAppend(a: seq<Preference>, b: seq<Preference>, user: int)
    ensures ForUser(a + b, user) == ForUser(a, user) + ForUser(b, user)
  {
    if |a| > 0 {
      var head := if a[0].userId == user then [a[0]] else [];
      assert (a + b)[0] == a[0] && (a + b)[1..] == a[1..] + b;
      assert ForUser(a, user) == head + ForUser(a[1..], user);
      assert ForUser(a + b, user) == head + ForUser(a[1..] + b, user);
      ForUserAppend(a[1..], b, user);
    } else {
      assert a + b == b;
    }
  }

  /** A single row is selected exactly when it belongs to the user. */
  lemma ForUserSingle(p: Preference, user: int)
    ensures ForUser([p], user) == if p.userId == user then [p] else []
  {
    assert [p][1..] == [];
  }

  datatype FilterReply = FilterReply(response: Response, orderBy: seq<OrderClause>)

  /** `GET /apply-filters`: the ordering built from the user's preferences. The
      user id is the query argument already converted to an integer; None
      stands for an absent or empty argument. */
  function ApplyFilters(prefs: seq<Preference>, userId: Option<int>): (r: FilterReply)
    ensures userId.None? <==> r.response == Response(HttpBadRequest, "User ID is required")
    ensures userId.None? ==> r.orderBy == []
    ensures userId.Some? ==> r.response.status == HttpOk
    ensures userId.Some? ==> forall c :: c in r.orderBy <==>
      exists p :: p in prefs && p.userId == userId.value && Sortable(p.key) && c == ClauseOf(p)
  {
    if userId.None? then FilterReply(Response(HttpBadRequest, "User ID is required"), [])
    else FilterReply(Response(HttpOk, ""), OrderClauses(ForUser(prefs, userId.value)))
  }

  /** After a user saves a sortable preference, applying their filters orders
      by that column in the saved direction. */
  lemma SetThenApply(prefs: seq<Preference>, user: int, key: string, value: string)
    requires user != 0 && Sortable(key) && value != ""
    ensures
      var saved := SetPreference(prefs, Some(user), Some(key), Some(value)).prefs;
      OrderClause(key, SortDirection(value)) in ApplyFilters(saved, Some(user)).orderBy
  {
    var saved := SetPreference(prefs, Some(user), Some(key), Some(value)).prefs;
    var i := IndexOf(saved, user, key).value;
    assert saved[i] == Preference(user, key, value);
    assert saved[i] in saved;
  }
}

=== FILE: ranking.dfy ===
/** The ranking engine of the search handler (views/product.py): the two
    per-listing scores, a stable sort by marketability descending, and the
    assignment of ranks 1..N over the sorted batch. */
module Ranking {
  import opened Common
  import opened Records
  import opened Catalog

  /** A listing's scores, before it has a rank. */
  datatype Scored = Scored(key: ProductKey, mbScore: real, cbScore: real)

  /** Scoring a listing whose delivery cost is zero divides by zero. */
  datatype ScoreError = DivisionByZero(key: ProductKey)

  /** Marketability: ten points per rating star plus one point per ten ratings
      (true division, not integer division). */
  function MbScore(l: Listing): (mb: real)
    ensures 10.0 * mb == 100.0 * l.productRating + l.numRatings as real
  {
    l.productRating * 10.0 + (l.numRatings as real) / 10.0
  }

  /** More stars and at least as many ratings never lower the marketability score. */
  lemma MbScoreMonotone(a: Listing, b: Listing)
    requires a.productRating <= b.productRating && a.numRatings <= b.numRatings
    ensures MbScore(a) <= MbScore(b)
  {
  }

  /** Customer benefit: price per unit of delivery cost. */
  function CbScore(l: Listing): (cb: real)
    requires l.deliveryCost != 0.0
    ensures cb * l.deliveryCost == l.productPrice
  {
    l.productPrice / l.deliveryCost
  }

  /** Both scores of one listing, or the division fault. */
  function ScoreListing(l: Listing): (r: Result<Scored, ScoreError>)
    ensures r.Failure? <==> l.deliveryCost == 0.0
    ensures r.Failure? ==> r.error.key == ListingKey(l)
    ensures r.Success? ==> r.value.key == ListingKey(l) && r.value.mbScore == MbScore(l)
    ensures r.Success? ==> r.value.cbScore * l.deliveryCost == l.productPrice
  {
    if l.deliveryCost == 0.0 then Failure(DivisionByZero(ListingKey(l)))
    else Success(Scored(ListingKey(l), MbScore(l), CbScore(l)))
  }

  /** Scores a whole batch, in batch order; the first zero delivery cost fails
      the batch, so no partial scoring escapes. */
  function ScoreAll(ls: seq<Listing>): (r: Result<seq<Scored>, ScoreError>)
    ensures r.Failure? <==> exists i :: 0 <= i < |ls| && ls[i].deliveryCost == 0.0
    ensures r.Success? ==> |r.value| == |ls|
    ensures r.Success? ==> forall i :: 0 <= i < |ls| ==> Success(r.value[i]) == ScoreListing(ls[i])
  {
    if |ls| == 0 then Success([])
    else match ScoreListing(ls[0])
      case Failure(e) => Failure(e)
      case Success(s) =>
        match ScoreAll(ls[1..])
        case Failure(e) =>
          assert forall i :: 1 <= i < |ls| ==> ls[i] == ls[1..][i - 1];
          Failure(e)
        case Success(rest) =>
          assert forall i :: 1 <= i < |ls| ==> ls[i] == ls[1..][i - 1];
          Success([s] + rest)
  }

  /** Non-increasing in marketability. */
  predicate SortedDesc(s: seq<Scored>) {
    forall i, j :: 0 <= i < j < |s| ==> s[i].mbScore >= s[j].mbScore
  }

  /** No element scores above `bound`. */
  predicate AllAtMost(s: seq<Scored>, bound: real) {
    forall i :: 0 <= i < |s| ==> s[i].mbScore <= bound
  }

  /** Places `x` after every element that scores strictly higher and before the rest. */
  function Insert(x: Scored, s: seq<Scored>): (r: seq<Scored>)
    ensures |r| == |s| + 1
    ensures forall bound :: AllAtMost(s, bound) && x.mbScore <= bound ==> AllAtMost(r, bound)
    ensures SortedDesc(s) ==> SortedDesc(r)
  {
    if |s| == 0 || s[0].mbScore <= x.mbScore then [x] + s
    else
      var t := Insert(x, s[1..]);
      assert forall bound :: AllAtMost(s, bound) ==> AllAtMost(s[1..], bound);
      assert SortedDesc(s) ==> AllAtMost(s[1..], s[0].mbScore);
      [s[0]] + t
  }

  /** Insertion adds exactly `x` and loses nothing. */
  lemma {:induction false} InsertPermutes(x: Scored, s: seq<Scored>)
    ensures multiset(Insert(x, s)) == multiset(s) + multiset{x}
  {
    if |s| > 0 && s[0].mbScore > x.mbScore {
      InsertPermutes(x, s[1..]);
      assert s == [s[0]] + s[1..];
      assert Insert(x, s) == [s[0]] + Insert(x, s[1..]);
    }
  }

  /** Stable sort by marketability, highest first: insertion sort that inserts
      each listing in front of the later listings it ties with. */
  function SortByMb(s: seq<Scored>): (r: seq<Scored>)
    ensures |r| == |s|
    ensures multiset(r) == multiset(s)
    ensures SortedDesc(r)
  {
    if |s| == 0 then []
    else
      assert s == [s[0]] + s[1..];
      InsertPermutes(s[0], SortByMb(s[1..]));
      Insert(s[0], SortByMb(s[1..]))
  }

  /** The elements scoring exactly `v`, in order. */
  function WithScore(s: seq<Scored>, v: real): seq<Scored> {
    if |s| == 0 then []
    else (if s[0].mbScore == v then [s[0]] else []) + WithScore(s[1..], v)
  }

  /** `WithScore` looks at the head, then at the rest. */
  lemma WithScoreCons(a: Scored, t: seq<Scored>, v: real)
    ensures WithScore([a] + t, v) == (if a.mbScore == v then [a] else []) + WithScore(t, v)
  {
    assert ([a] + t)[0] == a && ([a] + t)[1..] == t;
  }

  lemma {:induction false} InsertKeepsTies(x: Scored, s: seq<Scored>, v: real)
    requires SortedDesc(s)
    ensures WithScore(Insert(x, s), v) == WithScore([x] + s, v)
  {
    if |s| > 0 && s[0].mbScore > x.mbScore {
      var hx := if x.mbScore == v then [x] else [];
      var hs := if s[0].mbScore == v then [s[0]] else [];
      assert s == [s[0]] + s[1..];
      assert Insert(x, s) == [s[0]] + Insert(x, s[1..]);
      InsertKeepsTies(x, s[1..], v);
      WithScoreCons(s[0], Insert(x, s[1..]), v);
      WithScoreCons(x, s[1..], v);
      WithScoreCons(x, s, v);
      WithScoreCons(s[0], s[1..], v);
      assert hs + hx == hx + hs;
      assert WithScore(Insert(x, s), v) == hs + (hx + WithScore(s[1..], v));
      assert WithScore([x] + s, v) == hx + (hs + WithScore(s[1..], v));
    }
  }

  /** Stability: for every score, the listings with that score appear in the
      output in the same relative order as in the input. */
  lemma {:induction false} SortIsStable(s: seq<Scored>, v: real)
    ensures WithScore(SortByMb(s), v) == WithScore(s, v)
  {
    if |s| > 0 {
      SortIsStable(s[1..], v);
      InsertKeepsTies(s[0], SortByMb(s[1..]), v);
      var t := [s[0]] + SortByMb(s[1..]);
      assert t[0] == s[0] && t[1..] == SortByMb(s[1..]);
    }
  }

  /** Scores with rank `start`, `start + 1`, ... in sequence order. */
  function AssignRanks(s: seq<Scored>, start: int): (r: seq<RankedProduct>)
    ensures |r| == |s|
    ensures forall i :: 0 <= i < |r| ==> r[i].rank == start + i
    ensures forall i :: 0 <= i < |r| ==> Unrank(r[i]) == s[i]
  {
    if |s| == 0 then []
    else [RankedProduct(s[0].key, s[0].mbScore, s[0].cbScore, start)] + AssignRanks(s[1..], start + 1)
  }

  /** Drops the rank, recovering the scored listing. */
  function Unrank(rp: RankedProduct): Scored {
    Scored(rp.productKey, rp.mbScore, rp.cbScore)
  }

  function UnrankAll(r: seq<RankedProduct>): (s: seq<Scored>)
    ensures |s| == |r| && forall i :: 0 <= i < |r| ==> s[i] == Unrank(r[i])
  {
    seq(|r|, i requires 0 <= i < |r| => Unrank(r[i]))
  }

  /** Forgetting the ranks gives back exactly the sequence that was ranked. */
  lemma UnrankAssignRanks(s: seq<Scored>, start: int)
    ensures UnrankAll(AssignRanks(s, start)) == s
  {
  }

  /** The whole engine: score each listing, stable-sort by marketability
      descending, number the result from 1. */
  function Rank(ls: seq<Listing>): Result<seq<RankedProduct>, ScoreError> {
    match ScoreAll(ls)
    case Failure(e) => Failure(e)
    case Success(scored) => Success(AssignRanks(SortByMb(scored), 1))
  }

  /** Ranking fails exactly when some listing has a zero delivery cost. */
  lemma RankFails(ls: seq<Listing>)
    ensures Rank(ls).Failure? <==> exists i :: 0 <= i < |ls| && ls[i].deliveryCost == 0.0
  {
  }

  /** A successful ranking has one entry per listing, and dropping the ranks
      gives a permutation of the per-listing scores. */
  lemma RankPermutes(ls: seq<Listing>)
    requires Rank(ls).Success?
    ensures |Rank(ls).value| == |ls|
    ensures multiset(UnrankAll(Rank(ls).value)) == multiset(ScoreAll(ls).value)
  {
    UnrankAssignRanks(SortByMb(ScoreAll(ls).value), 1);
  }

  /** A successful ranking numbers its entries 1..N and never increases in
      marketability from one entry to a later one. */
  lemma RankOrdered(ls: seq<Listing>)
    requires Rank(ls).Success?
    ensures forall i :: 0 <= i < |Rank(ls).value| ==> Rank(ls).value[i].rank == i + 1
    ensures forall i, j :: 0 <= i < j < |Rank(ls).value| ==> Rank(ls).value[i].mbScore >= Rank(ls).value[j].mbScore
  {
    var sorted := SortByMb(ScoreAll(ls).value);
    var r := Rank(ls).value;
    forall i, j | 0 <= i < j < |r| ensures r[i].mbScore >= r[j].mbScore {
      assert Unrank(r[i]) == sorted[i] && Unrank(r[j]) == sorted[j];
    }
  }

  /** Listings that tie on marketability keep their crawl order. */
  lemma RankStable(ls: seq<Listing>, v: real)
    requires Rank(ls).Success?
    ensures WithScore(UnrankAll(Rank(ls).value), v) == WithScore(ScoreAll(ls).value, v)
  {
    var scored := ScoreAll(ls).value;
    UnrankAssignRanks(SortByMb(scored), 1);
    SortIsStable(scored, v);
  }

  /** Every ranked entry refers to a listing of the batch. */
  lemma RankedKeysListed(ls: seq<Listing>)
    requires Rank(ls).Success?
    ensures forall i :: 0 <= i < |Rank(ls).value| ==>
      exists j :: 0 <= j < |ls| && Rank(ls).value[i].productKey == ListingKey(ls[j])
  {
    var scored := ScoreAll(ls).value;
    var sorted := SortByMb(scored);
    var r := Rank(ls).value;
    forall i | 0 <= i < |r| ensures exists j :: 0 <= j < |ls| && r[i].productKey == ListingKey(ls[j]) {
      assert Unrank(r[i]) == sorted[i];
      assert sorted[i] in multiset(sorted);
      assert sorted[i] in multiset(scored);
      var j :| 0 <= j < |scored| && scored[j] == sorted[i];
      assert Success(scored[j]) == ScoreListing(ls[j]);
    }
  }

  /** The head of a descending sequence bounds every element of any
      permutation of it. */
  lemma HeadBoundsPermutation(a: seq<Scored>, b: seq<Scored>)
    requires |b| > 0 && multiset(a) == multiset(b)
    requires forall j :: 0 <= j < |b| ==> b[j].mbScore <= b[0].mbScore
    ensures forall i :: 0 <= i < |a| ==> a[i].mbScore <= b[0].mbScore
  {
    forall i | 0 <= i < |a| ensures a[i].mbScore <= b[0].mbScore {
      assert a[i] in multiset(b);
    }
  }

  /** The first-ranked entry has the highest marketability of the batch. */
  lemma TopRankIsMaximal(ls: seq<Listing>)
    requires Rank(ls).Success? && |ls| > 0
    ensures Rank(ls).value[0].rank == 1
    ensures forall i :: 0 <= i < |ls| ==> MbScore(ls[i]) <= Rank(ls).value[0].mbScore
  {
    var scored := ScoreAll(ls).value;
    var r := Rank(ls).value;
    var u := UnrankAll(r);
    RankPermutes(ls);
    RankOrdered(ls);
    assert forall j :: 0 <= j < |u| ==> u[j].mbScore <= u[0].mbScore;
    HeadBoundsPermutation(scored, u);
    forall i | 0 <= i < |ls| ensures MbScore(ls[i]) <= r[0].mbScore {
      assert Success(scored[i]) == ScoreListing(ls[i]);
    }
  }
}

=== FILE: records.dfy ===
/** The persisted record shapes of the service (users, search history,
    catalog products, ranked products), the read-model projection of a ranked
    product, the password pair and the user table's unique constraints. */
module Records {
  import opened Common

  /** A registered account. The phone number is declared mandatory and unique
      by the schema, but no handler ever supplies one, so it is optional here. */
  datatype User = User(
    id: nat,
    username: string,
    email: string,
    phoneNumber: Option<int>,
    passwordHash: string,
    profilePicture: Option<string>)

  /** One saved search; the owning user id is never null. */
  datatype SearchEntry = SearchEntry(id: nat, searchQuery: string, userId: int)

  /** A catalog entry: one product as sold by one shop. Only the rating is optional. */
  datatype Product = Product(
    id: nat,
    name: string,
    price: real,
    rating: Option<real>,
    url: string,
    deliveryCost: real,
    shopName: string,
    paymentMode: string)

  /** The identity of a catalog entry: its (product name, shop name) pair. */
  datatype ProductKey = ProductKey(name: string, shop: string)

  function KeyOf(p: Product): ProductKey {
    ProductKey(p.name, p.shopName)
  }

  /** A scored listing at a position of one ranking run; it refers to its
      catalog entry through the entry's key. */
  datatype RankedProduct = RankedProduct(productKey: ProductKey, mbScore: real, cbScore: real, rank: int)

  /** The flat record a ranked product is serialised to. */
  datatype ProductView = ProductView(
    productName: string,
    productPrice: real,
    productRating: Option<real>,
    shopName: string,
    rank: int,
    mbScore: real,
    cbScore: real)

  /** Projection of a ranked product joined with the catalog entry it refers to:
      the entry supplies name, price, rating and shop, the row its rank and scores. */
  function ToDict(rp: RankedProduct, p: Product): (v: ProductView)
    requires KeyOf(p) == rp.productKey
    ensures ProductKey(v.productName, v.shopName) == rp.productKey
    ensures v.productPrice == p.price && v.productRating == p.rating
    ensures v.rank == rp.rank && v.mbScore == rp.mbScore && v.cbScore == rp.cbScore
  {
    ProductView(p.name, p.price, p.rating, p.shopName, rp.rank, rp.mbScore, rp.cbScore)
  }

  /** The password hashing collaborator: a one-way hash and its verifier.
      Salting and the choice of library are folded into the two functions. */
  datatype PasswordHasher = PasswordHasher(hash: string -> string, verify: (string, string) -> bool)

  /** The one law assumed of the collaborator: a hash verifies against its own password. */
  ghost predicate Sound(h: PasswordHasher) {
    forall p :: h.verify(h.hash(p), p)
  }

  function CheckPassword(u: User, password: string, h: PasswordHasher): bool {
    h.verify(u.passwordHash, password)
  }

  /** Stores the hash of a new password; the user's other fields are untouched. */
  function SetPassword(u: User, password: string, h: PasswordHasher): (r: User)
    ensures r.(passwordHash := u.passwordHash) == u
    ensures Sound(h) ==> CheckPassword(r, password, h)
  {
    u.(passwordHash := h.hash(password))
  }

  /** The user table: its rows in insertion order and the next primary key. */
  datatype UserStore = UserStore(rows: seq<User>, nextId: nat)

  /** The table's unique constraints: id, username, email and (present) phone number. */
  predicate UniqueUsers(rows: seq<User>) {
    forall i, j :: 0 <= i < j < |rows| ==>
      && rows[i].id != rows[j].id
      && rows[i].username != rows[j].username
      && rows[i].email != rows[j].email
      && (rows[i].phoneNumber.None? || rows[i].phoneNumber != rows[j].phoneNumber)
  }

  /** The unique constraints hold and every id was handed out before `nextId`. */
  predicate ValidUsers(s: UserStore) {
    && UniqueUsers(s.rows)
    && forall i :: 0 <= i < |s.rows| ==> s.rows[i].id < s.nextId
  }

  /** Whether a commit leaving the table as `after` is accepted: the database is
      reachable (`available`) and no unique constraint is violated. */
  predicate Commits(after: UserStore, available: bool) {
    available && UniqueUsers(after.rows)
  }

  predicate HasEmail(rows: seq<User>, email: string) {
    exists i :: 0 <= i < |rows| && rows[i].email == email
  }

  /** The first user with this email, in table order. */
  function FindByEmail(rows: seq<User>, email: string): (r: Option<User>)
    ensures r.Some? <==> HasEmail(rows, email)
    ensures r.Some? ==> r.value in rows && r.value.email == email
    ensures UniqueUsers(rows) ==> forall i :: 0 <= i < |rows| && rows[i].email == email ==> r == Some(rows[i])
  {
    if |rows| == 0 then None
    else if rows[0].email == email then Some(rows[0])
    else FindByEmail(rows[1..], email)
  }

  /** Position of the first row with the given id, in table order. */
  function IndexOfId(rows: seq<User>, id: int): (r: Option<nat>)
    ensures r.Some? <==> exists i :: 0 <= i < |rows| && rows[i].id == id
    ensures r.Some? ==> r.value < |rows| && rows[r.value].id == id
    ensures r.Some? ==> forall i :: 0 <= i < r.value ==> rows[i].id != id
  {
    if |rows| == 0 then None
    else if rows[0].id == id then Some(0)
    else match IndexOfId(rows[1..], id)
      case None => None
      case Some(k) => Some(k + 1)
  }

  /** The row a registration inserts: no phone number and no picture yet. */
  function NewUser(id: nat, username: string, email: string, passwordHash: string): User {
    User(id, username, email, None, passwordHash, None)
  }

  /** The search-history table: its rows in insertion order and the next primary key. */
  datatype HistoryStore = HistoryStore(rows: seq<SearchEntry>, nextId: nat)

  /** Every entry has its own id, handed out before `nextId`. */
  predicate ValidHistory(hs: HistoryStore) {
    && (forall i :: 0 <= i < |hs.rows| ==> hs.rows[i].id < hs.nextId)
    && (forall i, j :: 0 <= i < j < |hs.rows| ==> hs.rows[i].id != hs.rows[j].id)
  }
}

=== FILE: search.dfy ===
/** The search handler of views/product.py: validate the query, upsert the
    crawled listings into the catalog, rank them, append the ranking snapshot
    and reply with the ranked rows joined to their catalog entries. */
module Search {
  import opened Common
  import opened Records
  import opened Catalog
  import opened Ranking

  /** The tables the handler touches: the catalog and every ranking snapshot so far. */
  datatype ShopState = ShopState(catalog: Store, rankings: seq<RankedProduct>)

  datatype SearchReply = SearchReply(state: ShopState, response: Response, results: seq<ProductView>)

  /** The crawler's output: a fixed simulation of two marketplace offers. */
  const SimulatedListings: seq<Listing> := [
    Listing("Samsung A51", 30098.0, 4.7, 10, 200.0, "Pay after delivery", "Jumia",
            "https://jumia.com/samsung-a51"),
    Listing("Samsung A51", 29999.0, 4.0, 4, 150.0, "Pay before delivery", "Kill Mall",
            "https://killmall.com/samsung-a51")
  ]

  /** `v` is ranked row `rp` as the client sees it: the row's key, rank and
      scores, with the price and rating of the catalog entry for that key. */
  ghost predicate Shows(v: ProductView, rp: RankedProduct, catalog: seq<Product>) {
    && ProductKey(v.productName, v.shopName) == rp.productKey
    && v.rank == rp.rank && v.mbScore == rp.mbScore && v.cbScore == rp.cbScore
    && exists p :: p in catalog && KeyOf(p) == rp.productKey
         && v.productPrice == p.price && v.productRating == p.rating
  }

  /** Each ranked row serialised through the catalog entry it refers to. */
  function Views(rows: seq<RankedProduct>, c: Store): (vs: seq<ProductView>)
    requires forall i :: 0 <= i < |rows| ==> Has(c.rows, rows[i].productKey)
    ensures |vs| == |rows|
    ensures forall i :: 0 <= i < |rows| ==> Shows(vs[i], rows[i], c.rows)
  {
    var vs := seq(|rows|, i requires 0 <= i < |rows| => ToDict(rows[i], Find(c.rows, rows[i].productKey).value));
    assert forall i :: 0 <= i < |rows| ==> Find(c.rows, rows[i].productKey).value in c.rows;
    vs
  }

  /** `GET /search`. The query text is only checked for presence; the crawled
      batch does not depend on it. */
  function SearchProducts(st: ShopState, query: Option<string>, crawled: seq<Listing>): (r: SearchReply)
    ensures !Given(query) ==> r.state == st && r.response == Response(HttpBadRequest, "Query parameter is required")
    ensures Given(query) ==> r.state.catalog == UpsertAll(st.catalog, crawled)
    ensures r.response.status == HttpServerError <==>
      Given(query) && exists i :: 0 <= i < |crawled| && crawled[i].deliveryCost == 0.0
    ensures r.response.status != HttpOk ==> r.state.rankings == st.rankings && r.results == []
    ensures Given(query) && (forall i :: 0 <= i < |crawled| ==> crawled[i].deliveryCost != 0.0) ==>
      r.response.status == HttpOk
    ensures r.response.status == HttpOk ==>
      && Given(query)
      && Rank(crawled).Success?
      && r.state.rankings == st.rankings + Rank(crawled).value
      && |r.results| == |crawled|
      && (forall i :: 0 <= i < |r.results| ==> Shows(r.results[i], Rank(crawled).value[i], r.state.catalog.rows))
      && (forall i :: 0 <= i < |r.results| ==> r.results[i].rank == i + 1)
      && (forall i, j :: 0 <= i < j < |r.results| ==> r.results[i].mbScore >= r.results[j].mbScore)
  {
    if !Given(query) then
      SearchReply(st, Response(HttpBadRequest, "Query parameter is required"), [])
    else
      var c := UpsertAll(st.catalog, crawled);
      match Rank(crawled)
      case Failure(_) =>
        RankFails(crawled);
        SearchReply(st.(catalog := c), Response(HttpServerError, "Internal Server Error"), [])
      case Success(rows) =>
        RankFails(crawled);
        RankPermutes(crawled);
        RankOrdered(crawled);
        RankedKeysListed(crawled);
        UpsertAllCovers(st.catalog, crawled);
        var rankings := st.rankings + rows;
        assert rankings[..|st.rankings|] == st.rankings;
        SearchReply(ShopState(c, rankings), Response(HttpOk, ""), Views(rows, c))
  }

  /** A result names the catalog entry for its (product, shop) key and carries
      that entry's current price and rating, not the crawled ones. */
  lemma ResultsComeFromCatalog(st: ShopState, query: Option<string>, crawled: seq<Listing>, i: int)
    requires Given(query)
    requires forall k :: 0 <= k < |crawled| ==> crawled[k].deliveryCost != 0.0
    requires 0 <= i < |crawled|
    ensures
      var r := SearchProducts(st, query, crawled);
      var v := r.results[i];
      exists p :: p in r.state.catalog.rows && KeyOf(p) == ProductKey(v.productName, v.shopName)
        && p.price == v.productPrice && p.rating == v.productRating
  {
    var r := SearchProducts(st, query, crawled);
    assert Shows(r.results[i], Rank(crawled).value[i], r.state.catalog.rows);
  }

  /** Running the same search twice adds no catalog entry the first run did not. */
  lemma RepeatedSearchKeepsCatalog(st: ShopState, query: Option<string>, crawled: seq<Listing>)
    ensures
      var once := SearchProducts(st, query, crawled).state;
      SearchProducts(once, query, crawled).state.catalog == once.catalog
  {
    UpsertAllIdempotent(st.catalog, crawled);
  }

  /** The simulated batch: Jumia's offer (marketability 48.0) is ranked first,
      Kill Mall's (40.4) second, whatever the catalog held before. */
  lemma SimulatedSearchRanksJumiaFirst(st: ShopState)
    ensures
      var r := SearchProducts(st, Some("samsung"), SimulatedListings);
      && r.response.status == HttpOk
      && |r.results| == 2
      && r.results[0].shopName == "Jumia" && r.results[0].rank == 1 && r.results[0].mbScore == 48.0
      && r.results[1].shopName == "Kill Mall" && r.results[1].rank == 2 && r.results[1].mbScore == 40.4
  {
    var ls := SimulatedListings;
    var jumia := Scored(ListingKey(ls[0]), 48.0, 150.49);
    var killMall := Scored(ListingKey(ls[1]), 40.4, 29999.0 / 150.0);
    assert ScoreAll(ls) == Success([jumia, killMall]) by {
      assert ScoreListing(ls[0]) == Success(jumia);
      assert ScoreListing(ls[1]) == Success(killMall);
      assert ls[1..] == [ls[1]];
      assert [ls[1]][1..] == [];
      assert ScoreAll([]) == Success([]);
      assert [killMall] + [] == [killMall];
      assert ScoreAll([ls[1]]) == Success([killMall]);
      assert [jumia] + [killMall] == [jumia, killMall];
    }
    assert SortByMb([jumia, killMall]) == [jumia, killMall] by {
      assert [jumia, killMall][1..] == [killMall];
      assert SortByMb([killMall]) == [killMall];
    }
    var rows := Rank(ls).value;
    assert rows[0].productKey == ProductKey("Samsung A51", "Jumia");
    assert rows[1].productKey == ProductKey("Samsung A51", "Kill Mall");
  }
}
